=== FILE: README.md ===
# tokens: a Dafny model of the OAuth2 token acquisition core

`tokens` is a command-line tool that keeps a registry of named OAuth2
clients and prints bearer tokens for them. It stores the refresh token each
grant returns, so that later retrievals need no credentials. This project
models the decision logic of that tool as pure Dafny functions and proves
what the code promises about it:

- **The token acquisition engine** (`src/oauth.rs`, `TokenManager`). It is a
  two-attempt state machine. The refresh grant of section 6 of RFC 6749 is
  tried first, and only when a refresh token is stored. Any failure of that
  attempt is swallowed. Otherwise, or after such a failure, the engine asks
  the credentials provider and sends the password grant of section 4.3.2 of
  RFC 6749. Any failure there is returned. A reply that carries a refresh
  token rotates the stored one. The engine returns the access token, with
  one exception: after a successful refresh with the "refresh token" flag
  set, it returns the refresh token the request was made with, which is the
  value before rotation.
- **The legacy engine** (`src/tokens.rs`). It is an older, scope-less copy of
  the same machine over a three-field client entry, plus its `delete_client`.
  `LegacyEquivalence.LegacyIsScopelessEngine` proves it behaves exactly like the newer
  engine called with no scopes.
- **The client registry** (`src/config.rs`). It is a map from nickname to
  client entry, with upsert, remove, lookup, borrow-and-edit and listing.
- **The commands** (`src/commands/`): `get`, `add`, `delete` and `logout`.
  The model covers which registry change each makes, whether it saves,
  which lines it prints and on which stream (standard output or standard
  error), and what it returns.

How the outside world is abstracted:

- The network is an input: a `Server` function maps each request (URL plus
  ordered form fields) to a `Wire` outcome. The outcome is either no
  response, or a status with a body that does or does not decode as a
  token response.
- The credentials provider is a `Result<(username, password), reason>`
  value. The console provider is modelled from the two terminal reads it
  performs.
- A save is an abstract `SaveOutcome` input. Each command's `Run` records
  the registry it handed to `save_config`, or `None` when it did not save.
- The engine mutates its client entry in place. Here it returns the updated
  entry, and the commands write it back into the registry.

Modules: `Wrappers` (Option, Result), `Types` (`src/types.rs`), `Output` (the
lines a command prints, each tagged with its stream, and a command run), `Scopes` (the
space-joined `scope` value and its split partner), `HttpExchange` (the POST
shared by both engines), `OAuth` and `OAuthProperties` (`src/oauth.rs`),
`Tokens` (`src/tokens.rs`), `Config` (`src/config.rs`), `Commands`
(`src/commands/`), and `LegacyEquivalence` (how the legacy engine and
`delete_client` relate to the newer engine and the delete command).

Points where the code is narrower than a reader might assume:

- **Error statuses.** `error_for_status` rejects only 400–599. Any other
  final status goes on to decoding, including a 3xx the client did not
  follow. Redirect following is inside the `Server` abstraction
  (`HttpExchange.IsErrorStatus`).
- **Scopes.** `scopes` is an ordered slice, joined as given with duplicates
  kept. The model uses a sequence.
- **Two entry shapes.** `src/types.rs:4-10` declares a four-field
  `AuthConfig` (with `secret`), and `src/tokens.rs:15-20` declares its own
  three-field one. The model uses the four-field entry for the engine of
  `src/oauth.rs`, the registry and the commands, and the three-field entry
  for `src/tokens.rs`. Several places still build the four-field
  `AuthConfig` with three fields: the tests at `src/commands/delete.rs:54-66`,
  `src/commands/logout.rs:55-59`, `src/oauth.rs:146-150` and
  `src/main.rs:149-153`. Likewise `src/main.rs:97-101` builds `AddCommand`
  without `secret`. As written these do not compile against
  `src/types.rs:4-10`. The model takes the behaviour those tests assert
  (scopes joined into one field, delete and logout leaving the other clients
  alone) and gives such entries no secret.

Two behaviours of the code look unintended; the model keeps them as they are:

- **Pre-rotation return.** After a successful refresh with the flag set, the
  engine returns the pre-rotation refresh token (`FlagReturnsPreRotationToken`).
- **The secret is never sent.** `secret` is stored, but `add_optional_fields`
  ignores the entry it is given, so no request ever carries it
  (`EngineIgnoresSecret`). As a result, the confidential-client
  authentication of section 2.3.1 of RFC 6749 is absent.

## Model

| member | source | states |
|---|---|---|
| Types.DefaultConfig | src/types.rs:12-15 | The default registry has no clients. |
| Types.Trim | src/types.rs:36-38 | The username trim keeps the slice left after dropping Unicode whitespace (the newline included) from both ends; that slice neither starts nor ends with whitespace. |
| Types.TrimIdempotent | src/types.rs:38 | Trimming an already trimmed username changes nothing. |
| Types.TrimPadding | src/types.rs:36-38 | For any whitespace padding on either side of a username that neither starts nor ends with whitespace, the trim gives exactly that username back. |
| Types.ConsoleCredentials | src/types.rs:29-45 | The console provider fails if either read fails, and a failed username read is reported before the password is read. On success it yields the trimmed username and the password exactly as read. |
| Types.ConsoleStripsUsernameOnly | src/types.rs:36-44 | A typed " alice\n" becomes "alice", while the password " pw " keeps its spaces. |
| OAuth.AddOptionalFields | src/oauth.rs:105-115 | The given fields are kept as a prefix, in order. Exactly one field is appended, `scope` holding the space-joined scopes, and only when the scope list is non-empty. |
| Scopes.SplitJoin | src/oauth.rs:111-113 | The `scope` value is the scopes joined by single spaces. Splitting it at spaces gives the scope list back whenever the list is non-empty and no scope contains a space. |
| Scopes.JoinInjective | src/oauth.rs:111-113 | Under the same conditions, distinct scope lists give distinct `scope` values. |
| HttpExchange.Receive | src/oauth.rs:56-64 | A POST yields a token response exactly when a reply came back, its status is not in 400–599 and its body decodes. Otherwise the error names the failing step: transport, status (carrying the status) or decode. |
| OAuth.ScopeField | src/oauth.rs:105-115 | A `scope` field is appended exactly when the scope list is non-empty, and it holds the space-joined scopes. No other field is appended. |
| OAuth.PasswordFormNames | src/oauth.rs:46-53 | The password grant body has exactly the fields `grant_type`, `client_id`, `username`, `password`, in that order, then `scope` only when scopes were requested. No secret field is among them. |
| OAuth.PasswordFormFields | src/oauth.rs:46-53 | In the password grant body, `grant_type` is "password", `client_id` is the client's id, `username` and `password` are the credentials given, and `scope` holds the joined scopes exactly when any were requested. |
| OAuth.RefreshFormNames | src/oauth.rs:78-84 | The refresh grant body has exactly the fields `grant_type`, `client_id`, `refresh_token`, in that order, then `scope` only when scopes were requested. |
| OAuth.RefreshFormFields | src/oauth.rs:78-84 | In the refresh grant body, `grant_type` is "refresh_token", `client_id` is the client's id, `refresh_token` is the token given, and `scope` holds the joined scopes exactly when any were requested. |
| OAuth.Rotate | src/oauth.rs:65-67 | A reply with a refresh token replaces the stored one. A reply without one leaves the entry identical. The url, client id and secret never change. |
| OAuth.Post | src/oauth.rs:55-69 | A grant succeeds exactly when the reply is a token response, and then returns its access token and rotates. A failure returns the exchange's error and leaves the entry untouched. |
| OAuth.RequestNewToken | src/oauth.rs:39-70 | The password grant sends its password request to the token URL. Any failure leaves the entry as it was. |
| OAuth.UseRefreshToken | src/oauth.rs:72-103 | The refresh grant sends its refresh request with the given token. Any failure leaves the entry as it was, because mutation follows a successful decode. |
| OAuth.GetOrRefreshToken | src/oauth.rs:17-37 | The provider is consulted exactly when the refresh attempt did not succeed, and then a refresh failure is never surfaced. A successful refresh sends one request and returns the pre-call refresh token with the flag, else the new access token. A provider error is returned with no password request sent. Whenever the provider is consulted, the requests are exactly the refresh attempt (if a token was stored) followed by one password request (if the provider answered). The password grant's outcome is the call's outcome. Only the refresh token changes, and only on success, to the last reply's. |
| OAuthProperties.PasswordPathIgnoresFlag | src/oauth.rs:34-36 | Whenever the password path runs, the call with the flag set is identical to the call without it. |
| OAuthProperties.FailedRefreshFallsBack | src/oauth.rs:24-25 | A failed refresh is invisible except for the request it sent. Result, prompting and later requests equal those for the same entry with no token stored. The stored token survives unless the password reply rotates it. |
| OAuthProperties.EngineIgnoresSecret | src/oauth.rs:105-115 | Changing the stored secret changes neither the requests sent nor the result, so the secret never reaches the wire. |
| OAuthProperties.RotationReturnsAccessToken | src/oauth.rs:24-31 | Stored "r1" and a reply {a2, r2}: the call returns "a2", stores "r2" and never prompts. |
| OAuthProperties.FlagReturnsPreRotationToken | src/oauth.rs:24-31 | The same exchange with the flag set returns "r1" while "r2" is stored. |
| OAuthProperties.RejectedRefreshKeepsStoredToken | src/oauth.rs:24-36 | A refresh rejected with 400 falls back to the password grant. Its reply {a3} without a refresh token is returned, and "rbad" stays stored. |
| OAuthProperties.PasswordGrantStoresRefreshToken | src/oauth.rs:64-69 | With nothing stored, a password reply {a4, r4} returns "a4", even with the flag set, and stores "r4". |
| OAuthProperties.ProviderFailureSendsNothing | src/oauth.rs:34 | A failing provider with nothing stored returns its error, and no request is sent. |
| OAuthProperties.ScopesAreJoined | src/oauth.rs:132-163 | Scopes ["openid", "profile"] travel as the single field `scope=openid profile`. |
| Config.AddClient | src/config.rs:40-42 | After the upsert the nickname maps to the given entry, and every other nickname is unchanged. |
| Config.RemoveClient | src/config.rs:44-46 | Returns true exactly when the nickname was present. Afterwards it is absent and all other entries are equal. An unknown nickname leaves the registry identical. |
| Config.GetClient | src/config.rs:56-59 | Returns an entry exactly when the nickname is a key, and that entry is the stored one. |
| Config.GetClientMut | src/config.rs:48-54 | Returns a borrow exactly when the nickname is a key. The borrow holds that nickname and the stored entry. |
| Config.EditThroughBorrow | src/config.rs:48-54 | An edit written through a borrow keeps the set of nicknames and changes only the borrowed entry. |
| Config.UneditedBorrowIsIdentity | src/config.rs:48-54 | Writing an unedited borrow back leaves the registry identical. |
| Config.RemoveThenAdd | src/config.rs:40-59 | A removed nickname is not found, a second remove reports false, and adding it back makes the new entry visible. |
| Config.ListClients | src/config.rs:61-63 | The listing holds each (nickname, entry) pair of the registry exactly once: every pair is stored, every nickname appears, and none repeats. |
| Commands.Render | src/commands/get.rs:26-35 | Without a format the token is printed verbatim. With `Format::Header` the printed value is "Bearer " followed by the token. |
| Commands.Get | src/commands/get.rs:13-54 | An unknown nickname means no engine call, no change and no save. Otherwise the engine gets the stored entry, flag and scopes unchanged, and the entry is updated in place. A save happens exactly after a success and a failed save only warns. An engine failure is reported and nothing is saved. Of the command's own lines, standard output receives only the token line after a success; every other line goes to standard error. The command always returns Ok. |
| Commands.Add | src/commands/add.rs:13-37 | The entry goes under the nickname, or the client id when none is given. It copies url, client id and secret and has no refresh token. It replaces any previous entry and leaves others equal. The registry changes before the save, and a save error is the command's error. Its one line goes to standard output. |
| Commands.Delete | src/commands/delete.rs:9-26 | The named entry is removed and the rest stay equal. A save is attempted exactly when something was removed. Its one line goes to standard output. The command returns Ok in every case. |
| Commands.Logout | src/commands/logout.rs:9-27 | Only the named client's refresh token becomes None; every other field and client is unchanged. A save is attempted exactly when the client exists, a failed save is only reported on standard output, and the command returns Ok. |
| Commands.LogoutIdempotent | src/commands/logout.rs:10-14 | Logging out twice gives the same registry as logging out once. |
| Commands.DeleteIdempotent | src/commands/delete.rs:10-24 | Deleting twice gives the same registry as deleting once, and the second delete does not save. |
| Commands.ReAddForgetsRefreshToken | src/commands/add.rs:19-28 | Re-adding a client discards its stored refresh token, so the next `get` consults the credentials provider. |
| Commands.LogoutForcesPrompt | src/commands/logout.rs:10-14 | After a logout, the next `get` of that client consults the credentials provider. |
| Tokens.PasswordFormFields | src/tokens.rs:63-68 | The legacy password body is exactly `grant_type=password`, `client_id`, `username`, `password`, with no `scope`. |
| Tokens.RefreshFormFields | src/tokens.rs:105-109 | The legacy refresh body is exactly `grant_type=refresh_token`, `client_id`, `refresh_token`, with no `scope`. |
| Tokens.Post | src/tokens.rs:111-124 | The legacy grant succeeds exactly when the reply is a token response, and then returns its access token and rotates when a refresh token came back. A failure leaves the entry untouched. |
| Tokens.RequestNewToken | src/tokens.rs:57-84 | The legacy password grant sends its four-field body. A failure leaves the entry as it was. |
| Tokens.UseRefreshToken | src/tokens.rs:100-125 | The legacy refresh grant sends its three-field body. A failure leaves the entry as it was. |
| Tokens.GetOrRefreshTokenWithInput | src/tokens.rs:33-55 | A working stored token means no prompt, and the flag picks the pre-call refresh token. A prompt error is returned before any password request. When prompted, the requests are exactly the refresh attempt (if a token was stored) followed by one password request (if the prompt answered), and that grant decides the result. A success stores the last reply's refresh token when it carries one. A failure leaves the entry unchanged. |
| LegacyEquivalence.LegacyIsScopelessEngine | src/tokens.rs:33-55 | The legacy engine equals the newer engine with no scopes: same requests, result, prompting and stored token. |
| Tokens.DeleteClient | src/tokens.rs:150-160 | Removes exactly the named entry and leaves the others equal. An unknown nickname leaves the registry unchanged, with no save. It reports removal, a failed save or a missing client on standard output. |
| LegacyEquivalence.DeleteClientIsDeleteCommand | src/tokens.rs:150-160 | `delete_client` behaves exactly like the delete command on the same registry and save outcome. |
| Tokens.ValidRefreshTokenNeverPrompts | tests/tokens_tests.rs:8-43 | A working stored token is refreshed without prompting. The new access token is returned, and the new refresh token is stored. |
| Tokens.InvalidRefreshTokenFallsBackToPrompt | tests/tokens_tests.rs:45-77 | A refresh rejected with 400 falls back to the prompt. The password grant's tokens are returned and stored. |
| Tokens.DeleteLeavesOthers | tests/general_tests.rs:39-80 | Deleting "test1" from a two-client registry leaves exactly "test2", unchanged. |

## Left out

- HTTP transport (`reqwest`, async/await): it is replaced by the `Server` input. The code defines no timeouts or retries.
- JSON decoding and encoding (`serde`, `serde_json`): a reply body is taken as already decoded or as a decode failure. The serialisation round-trip tests of `src/types.rs` and the configuration file's save/load round trip are therefore not modelled.
- The wording of each printed line: `Output.Notice` records which line was printed, with its variable part, and its stream, not its text. The error text `main` prints on standard error for a failed `add` is the command's `Err` value.
- The JSON text of the `Header` output: `Output.Message` carries the `Authorization` value, not its rendering and escaping.
- URL form encoding, such as `+` for a space in the scope value: forms are kept as (name, value) pairs.
- File I/O (`get_config_path`, `read_config`, `save_config`, home-directory lookup, directory creation, in both `src/config.rs` and `src/tokens.rs`): a save is an abstract outcome.
- Terminal I/O of the console provider (prompt writes, flushes, `read_line`, `rpassword`): each read's outcome is an input, and a flush failure is folded into the read that follows it. The provider writes its two prompts, `Username: ` and `Password: `, to standard output with `print!`, so a `get` that consults it also puts them on standard output, before the token line. `Output.OnStream` covers only the commands' own lines.
- `prompt_credentials_from_user` in `src/tokens.rs`: it is the same logic as the console provider, `Types.ConsoleCredentials`.
- `src/main.rs` (argument parsing and dispatch), `src/commands/list.rs` and the legacy `list_clients` table: these only render output.
- The `Box::leak` in `add_optional_fields`: it is a memory-management detail with no behavioural effect.
- Process-level concerns: concurrent writers to the configuration file and a crash during a write.

=== FILE: commands.dfy ===
/** The command-level decisions of src/commands/ on top of the registry and
    the engine: get, add, delete and logout. Each command returns what it
    returned, the registry afterwards, what it handed to `save_config` (if it
    saved at all) and what it printed on which stream. */
module Commands {
  import opened Wrappers
  import opened Types
  import opened HttpExchange
  import opened OAuth
  import opened Config
  import opened Output

  /** The one special output format of `get`. */
  datatype Format = Header

  /** The line printed for a token: verbatim without a format, and as a
      `Bearer` authorization value with `Format::Header`. */
  function Render(format: Option<Format>, token: string): (m: Message)
    ensures format.None? ==> m == Plain(token)
    ensures format.Some? ==> m.AuthorizationHeader? && |m.value| >= 7 && m.value[..7] == "Bearer " && m.value[7..] == token
  {
    match format
    case None => Plain(token)
    case Some(Header) => AuthorizationHeader("Bearer " + token)
  }

  datatype GetCommand = GetCommand(nickname: string, refreshToken: bool, format: Option<Format>, scopes: seq<string>)

  /** A `get` run, with the engine call it made, if any. */
  datatype GetRun = GetRun(run: Run<AuthConfig>, engine: Option<Acquisition>)

  /** `GetCommand::execute`: look the client up, run the engine on it with
      the command's flag and scopes, print the token, and save only after a
      success. The command itself always succeeds. */
  function Get(cmd: GetCommand, config: Registry, server: Server, credentials: Credentials, disk: SaveOutcome): (g: GetRun)
    ensures g.run.result == Ok(())
    // unknown nickname: no engine call, no change, no save
    ensures g.engine.Some? <==> cmd.nickname in config.clients
    ensures g.engine.None? ==> g.run.config == config && g.run.written == None
                               && g.run.notices == [ClientNotFound(cmd.nickname)]
    // the engine sees the stored entry, the flag and the scopes as given
    ensures g.engine.Some? ==>
              g.engine.value == GetOrRefreshToken(server, config.clients[cmd.nickname], cmd.refreshToken, cmd.scopes, credentials)
    // the entry is updated in place; nothing else changes
    ensures g.engine.Some? ==> g.run.config.clients.Keys == config.clients.Keys
    ensures g.engine.Some? ==> g.run.config.clients[cmd.nickname] == g.engine.value.auth
    ensures forall n :: n in config.clients && n != cmd.nickname ==> g.run.config.clients[n] == config.clients[n]
    // a save happens exactly after a success, and writes the updated registry
    ensures g.run.written.Some? <==> g.engine.Some? && g.engine.value.result.Ok?
    ensures g.run.written.Some? ==> g.run.written.value == g.run.config
    // a success prints the token line, then warns if the save failed
    ensures g.run.written.Some? ==>
              |g.run.notices| > 0 && g.run.notices[0] == Printed(Render(cmd.format, g.engine.value.result.value))
              && (disk.Saved? ==> |g.run.notices| == 1)
              && (disk.SaveFailed? ==> g.run.notices == [g.run.notices[0], SaveWarning(disk.reason)])
    // a failure is reported and leaves the registry as it was
    ensures g.engine.Some? && g.engine.value.result.Err? ==>
              g.run.config == config && g.run.notices == [RetrievalFailed(g.engine.value.result.error)]
    // standard output carries the token line and nothing else
    ensures OnStream(g.run.notices, Stdout) ==
              if g.engine.Some? && g.engine.value.result.Ok?
              then [Printed(Render(cmd.format, g.engine.value.result.value))] else []
  {
    match GetClientMut(config, cmd.nickname)
    case None => GetRun(Run(Ok(()), config, None, [ClientNotFound(cmd.nickname)]), None)
    case Some(borrow) =>
      var a := GetOrRefreshToken(server, borrow.entry, cmd.refreshToken, cmd.scopes, credentials);
      var updated := AddClient(config, borrow.nickname, a.auth);
      match a.result
      case Err(e) => GetRun(Run(Ok(()), updated, None, [RetrievalFailed(e)]), Some(a))
      case Ok(token) =>
        var printed := [Printed(Render(cmd.format, token))];
        var warned := if disk.SaveFailed? then [SaveWarning(disk.reason)] else [];
        GetRun(Run(Ok(()), updated, Some(updated), printed + warned), Some(a))
  }

  datatype AddCommand = AddCommand(nickname: Option<string>, authUrl: string, clientId: string, secret: Option<string>)

  /** The nickname an `add` stores under: the given one, else the client id. */
  function AddNickname(cmd: AddCommand): string
  {
    if cmd.nickname.Some? then cmd.nickname.value else cmd.clientId
  }

  /** `AddCommand::execute`: store a fresh entry (no refresh token) under the
      nickname, replacing any entry there, then save; a failed save is the
      command's error, after the registry has already changed. */
  function Add(cmd: AddCommand, config: Registry, disk: SaveOutcome): (run: Run<AuthConfig>)
    ensures var n := AddNickname(cmd);
            && n in run.config.clients
            && run.config.clients[n] == AuthConfig(cmd.authUrl, cmd.clientId, None, cmd.secret)
            && run.config.clients.Keys == config.clients.Keys + {n}
            && (forall m :: m in config.clients && m != n ==> run.config.clients[m] == config.clients[m])
    ensures run.written == Some(run.config)
    ensures run.result.Ok? <==> disk.Saved?
    ensures disk.SaveFailed? ==> run.result == Err(disk.reason) && run.notices == []
    ensures disk.Saved? ==> run.notices == [ClientAdded(AddNickname(cmd))]
    ensures OnStream(run.notices, Stdout) == run.notices
  {
    var nickname := AddNickname(cmd);
    var entry := AuthConfig(cmd.authUrl, cmd.clientId, None, cmd.secret);
    var updated := AddClient(config, nickname, entry);
    match disk
    case Saved => Run(Ok(()), updated, Some(updated), [ClientAdded(nickname)])
    case SaveFailed(reason) => Run(Err(reason), updated, Some(updated), [])
  }

  /** `DeleteCommand::execute`: remove the entry and save only if something
      was removed; the command always succeeds. */
  function Delete<Entry>(nickname: string, config: ConfigFile<Entry>, disk: SaveOutcome): (run: Run<Entry>)
    ensures run.result == Ok(())
    ensures run.config.clients.Keys == config.clients.Keys - {nickname}
    ensures forall n :: n in run.config.clients ==> run.config.clients[n] == config.clients[n]
    ensures run.written.Some? <==> nickname in config.clients
    ensures run.written.Some? ==> run.written.value == run.config
    ensures nickname !in config.clients ==> run.config == config && run.notices == [ClientMissing(nickname)]
    ensures nickname in config.clients ==>
              run.notices == [if disk.Saved? then ClientRemoved(nickname) else UpdateFailed(disk.reason)]
    ensures OnStream(run.notices, Stdout) == run.notices
  {
    var r := RemoveClient(config, nickname);
    if r.removed then
      var notice := match disk
        case Saved => ClientRemoved(nickname)
        case SaveFailed(reason) => UpdateFailed(reason);
      Run(Ok(()), r.config, Some(r.config), [notice])
    else
      Run(Ok(()), r.config, None, [ClientMissing(nickname)])
  }

  /** `LogoutCommand::execute`: clear one entry's refresh token and save only
      if the entry exists; the command always succeeds. */
  function Logout(nickname: string, config: Registry, disk: SaveOutcome): (run: Run<AuthConfig>)
    ensures run.result == Ok(())
    ensures run.config.clients.Keys == config.clients.Keys
    ensures nickname in config.clients ==>
              run.config.clients[nickname] == config.clients[nickname].(refreshToken := None)
    ensures forall n :: n in config.clients && n != nickname ==> run.config.clients[n] == config.clients[n]
    ensures run.written.Some? <==> nickname in config.clients
    ensures run.written.Some? ==> run.written.value == run.config
    ensures nickname !in config.clients ==> run.config == config && run.notices == [ClientMissing(nickname)]
    ensures nickname in config.clients ==>
              run.notices == [if disk.Saved? then RefreshTokenRemoved(nickname) else UpdateFailed(disk.reason)]
    ensures OnStream(run.notices, Stdout) == run.notices
  {
    match GetClientMut(config, nickname)
    case None => Run(Ok(()), config, None, [ClientMissing(nickname)])
    case Some(borrow) =>
      var updated := AddClient(config, borrow.nickname, borrow.entry.(refreshToken := None));
      var notice := match disk
        case Saved => RefreshTokenRemoved(nickname)
        case SaveFailed(reason) => UpdateFailed(reason);
      Run(Ok(()), updated, Some(updated), [notice])
  }

  /** Logging out twice leaves the same registry as logging out once. */
  lemma LogoutIdempotent(nickname: string, config: Registry, disk1: SaveOutcome, disk2: SaveOutcome)
    ensures var once := Logout(nickname, config, disk1).config;
            Logout(nickname, once, disk2).config == once
  {
    var once := Logout(nickname, config, disk1).config;
    assert Logout(nickname, once, disk2).config.clients == once.clients;
  }

  /** Deleting twice leaves the same registry as deleting once, and the
      second delete attempts no save. */
  lemma DeleteIdempotent<Entry>(nickname: string, config: ConfigFile<Entry>, disk1: SaveOutcome, disk2: SaveOutcome)
    ensures var once := Delete(nickname, config, disk1).config;
            Delete(nickname, once, disk2).config == once && Delete(nickname, once, disk2).written == None
  {
  }

  /** Re-adding a client under the same nickname discards its stored refresh
      token, so the next `get` has to prompt unless the refresh token comes
      back some other way. */
  lemma ReAddForgetsRefreshToken(cmd: AddCommand, config: Registry, disk: SaveOutcome, server: Server,
                                 flag: bool, scopes: seq<string>, credentials: Credentials)
    ensures var added := Add(cmd, config, disk).config;
            var get := Get(GetCommand(AddNickname(cmd), flag, None, scopes), added, server, credentials, disk);
            get.engine.Some? && get.engine.value.consulted
  {
  }

  /** A logged-out client prompts on its next `get`. */
  lemma LogoutForcesPrompt(nickname: string, config: Registry, disk: SaveOutcome, server: Server,
                           flag: bool, format: Option<Format>, scopes: seq<string>, credentials: Credentials)
    requires nickname in config.clients
    ensures var out := Logout(nickname, config, disk).config;
            var get := Get(GetCommand(nickname, flag, format, scopes), out, server, credentials, disk);
            get.engine.Some? && get.engine.value.consulted
  {
  }
}

=== FILE: config.dfy ===
/** The client registry operations of src/config.rs (`ConfigManager`), on the
    registry as a map from nickname to entry. Saving is an abstract event
    whose outcome is an input. */
module Config {
  import opened Wrappers
  import opened Types

  /** What `save_config` returned when a save was attempted. */
  datatype SaveOutcome = Saved | SaveFailed(reason: string)

  /** `add_client`: an upsert. Afterwards the nickname maps to the entry and
      every other nickname maps to what it mapped to before. */
  function AddClient<Entry>(config: ConfigFile<Entry>, nickname: string, entry: Entry): (r: ConfigFile<Entry>)
    ensures r.clients.Keys == config.clients.Keys + {nickname}
    ensures nickname in r.clients && r.clients[nickname] == entry
    ensures forall n :: n in config.clients && n != nickname ==> r.clients[n] == config.clients[n]
  {
    ConfigFile(config.clients[nickname := entry])
  }

  /** Whether `remove_client` found the nickname, and the registry after it. */
  datatype Removal<Entry> = Removal(removed: bool, config: ConfigFile<Entry>)

  /** `remove_client`: true exactly when the nickname was present; afterwards
      it is absent and every other entry is as it was, so an unknown
      nickname leaves the registry identical. */
  function RemoveClient<Entry>(config: ConfigFile<Entry>, nickname: string): (r: Removal<Entry>)
    ensures r.removed <==> nickname in config.clients
    ensures r.config.clients.Keys == config.clients.Keys - {nickname}
    ensures forall n :: n in r.config.clients ==> r.config.clients[n] == config.clients[n]
    ensures !r.removed ==> r.config == config
  {
    Removal(nickname in config.clients, ConfigFile(config.clients - {nickname}))
  }

  /** `get_client`: the stored entry exactly when the nickname is a key. */
  function GetClient<Entry>(config: ConfigFile<Entry>, nickname: string): (r: Option<Entry>)
    ensures r.Some? <==> nickname in config.clients
    ensures r.Some? ==> r.value == config.clients[nickname]
  {
    if nickname in config.clients then Some(config.clients[nickname]) else None
  }

  /** A mutable borrow of one entry: which nickname it came from and the
      entry as borrowed. Writing back through it is `AddClient` on that
      nickname. */
  datatype ClientRef<Entry> = ClientRef(nickname: string, entry: Entry)

  /** `get_client_mut`: a borrow of the stored entry exactly when the
      nickname is a key. */
  function GetClientMut<Entry>(config: ConfigFile<Entry>, nickname: string): (r: Option<ClientRef<Entry>>)
    ensures r.Some? <==> nickname in config.clients
    ensures r.Some? ==> r.value.nickname == nickname && r.value.entry == config.clients[nickname]
  {
    if nickname in config.clients then Some(ClientRef(nickname, config.clients[nickname])) else None
  }

  /** An edit made through a borrow touches only the borrowed entry: the set
      of nicknames is unchanged and every other entry is as it was. */
  lemma EditThroughBorrow<Entry>(config: ConfigFile<Entry>, nickname: string, edited: Entry)
    requires GetClientMut(config, nickname).Some?
    ensures var r := AddClient(config, GetClientMut(config, nickname).value.nickname, edited);
            && r.clients.Keys == config.clients.Keys
            && r.clients[nickname] == edited
            && forall n :: n in config.clients && n != nickname ==> r.clients[n] == config.clients[n]
  {
  }

  /** Writing back the borrowed entry unedited leaves the registry identical. */
  lemma UneditedBorrowIsIdentity<Entry>(config: ConfigFile<Entry>, nickname: string)
    requires GetClientMut(config, nickname).Some?
    ensures var b := GetClientMut(config, nickname).value;
            AddClient(config, b.nickname, b.entry) == config
  {
    var b := GetClientMut(config, nickname).value;
    assert AddClient(config, b.nickname, b.entry).clients == config.clients;
  }

  /** A removed client cannot be looked up, and adding it back makes it
      visible again with the new entry. */
  lemma RemoveThenAdd<Entry>(config: ConfigFile<Entry>, nickname: string, entry: Entry)
    ensures GetClient(RemoveClient(config, nickname).config, nickname) == None
    ensures GetClient(AddClient(RemoveClient(config, nickname).config, nickname, entry), nickname) == Some(entry)
    ensures !RemoveClient(RemoveClient(config, nickname).config, nickname).removed
  {
  }

  /** `list_clients`: every (nickname, entry) pair of the registry exactly
      once, in no particular order. */
  method ListClients<Entry>(config: ConfigFile<Entry>) returns (pairs: seq<(string, Entry)>)
    ensures forall i :: 0 <= i < |pairs| ==> pairs[i].0 in config.clients && pairs[i].1 == config.clients[pairs[i].0]
    ensures (set i | 0 <= i < |pairs| :: pairs[i].0) == config.clients.Keys
    ensures forall i, j :: 0 <= i < j < |pairs| ==> pairs[i].0 != pairs[j].0
  {
    pairs := [];
    var rest := config.clients.Keys;
    while rest != {}
      invariant rest <= config.clients.Keys
      invariant forall i :: 0 <= i < |pairs| ==> pairs[i].0 in config.clients && pairs[i].1 == config.clients[pairs[i].0]
      invariant (set i | 0 <= i < |pairs| :: pairs[i].0) == config.clients.Keys - rest
      invariant forall i, j :: 0 <= i < j < |pairs| ==> pairs[i].0 != pairs[j].0
      decreases rest
    {
      var n :| n in rest;
      ghost var before := pairs;
      ghost var listed := set i | 0 <= i < |before| :: before[i].0;
      pairs := pairs + [(n, config.clients[n])];
      assert (set i | 0 <= i < |pairs| :: pairs[i].0) == listed + {n} by {
        forall k | k in listed + {n}
          ensures exists i :: 0 <= i < |pairs| && pairs[i].0 == k
        {
          if k == n {
            assert pairs[|pairs| - 1].0 == k;
          } else {
            var i :| 0 <= i < |before| && before[i].0 == k;
            assert pairs[i] == before[i];
          }
        }
      }
      rest := rest - {n};
    }
  }
}

=== FILE: http_exchange.dfy ===
/** One form-encoded POST to a token endpoint, as both engines send it: the
    request, what the network yields, and how a reply becomes a token
    response or an error (`send().await?`, `error_for_status()?`,
    `json().await?`). The transport is an input: a `Server` maps each request
    to what came back. */
module HttpExchange {
  import opened Wrappers
  import opened Types

  /** The path every grant is posted to, below the client's `auth_url`. */
  const TokenPath: string := "/protocol/openid-connect/token"

  function TokenUrl(authUrl: string): string
  {
    authUrl + TokenPath
  }

  /** A form body as its ordered (name, value) pairs, before URL encoding. */
  type Form = seq<(string, string)>

  datatype Request = Request(url: string, form: Form)

  /** What came back for one POST: no response at all, or a status with a
      body that either decodes as a token response or does not. */
  datatype Wire = NoResponse | Reply(status: nat, body: Option<TokenResponse>)

  /** The network as seen after `send`: redirects the client follows happen
      inside it, so a `Reply` carries the final status. */
  type Server = Request -> Wire

  /** `error_for_status` rejects client and server errors, 400 to 599. */
  predicate IsErrorStatus(status: nat) {
    400 <= status <= 599
  }

  /** The value of the first field called `name`, if any. */
  function Lookup(form: Form, name: string): (v: Option<string>)
  {
    if |form| == 0 then None
    else if form[0].0 == name then Some(form[0].1)
    else Lookup(form[1..], name)
  }

  /** The field names of a form, in order. */
  function Names(form: Form): (names: seq<string>)
    ensures |names| == |form|
    ensures forall i :: 0 <= i < |form| ==> names[i] == form[i].0
  {
    seq(|form|, i requires 0 <= i < |form| => form[i].0)
  }

  /** The grant a request asks for. */
  function GrantType(r: Request): Option<string>
  {
    Lookup(r.form, "grant_type")
  }

  /** A reply is a token response exactly when there was a reply, its status
      is not an error, and its body decodes; the error says which step
      failed. */
  function Receive(w: Wire): (r: Result<TokenResponse, AuthError>)
    ensures r.Ok? <==> w.Reply? && !IsErrorStatus(w.status) && w.body.Some?
    ensures r.Ok? ==> r.value == w.body.value
    ensures r == Err(TransportError) <==> w.NoResponse?
    ensures r.Err? && r.error.StatusError? <==> w.Reply? && IsErrorStatus(w.status)
    ensures r.Err? && r.error.StatusError? ==> r.error.status == w.status
    ensures r == Err(DecodeError) <==> w.Reply? && !IsErrorStatus(w.status) && w.body.None?
    ensures r.Err? ==> !r.error.CredentialsError?
  {
    match w
    case NoResponse => Err(TransportError)
    case Reply(status, body) =>
      if IsErrorStatus(status) then Err(StatusError(status))
      else if body.None? then Err(DecodeError)
      else Ok(body.value)
  }
}

=== FILE: legacy_equivalence.dfy ===
/** How the legacy engine of src/tokens.rs relates to the newer code: its
    engine is the one of src/oauth.rs called with no scopes, and its
    `delete_client` is the delete command. */
module LegacyEquivalence {
  import opened Wrappers
  import opened Types
  import opened HttpExchange
  import opened Tokens
  import OAuth
  import Config
  import Commands

  /** The entry seen as one of the newer engine's, with no secret. */
  function Lift(auth: LegacyAuthConfig): AuthConfig
  {
    AuthConfig(auth.authUrl, auth.clientId, auth.refreshToken, None)
  }

  /** This engine is the newer one called with no scopes: the same requests,
      the same result, the same prompting and the same stored token. */
  lemma LegacyIsScopelessEngine(server: Server, auth: LegacyAuthConfig, fetchRefreshToken: bool, prompt: Credentials)
    ensures var legacy := GetOrRefreshTokenWithInput(server, auth, fetchRefreshToken, prompt);
            var scoped := OAuth.GetOrRefreshToken(server, Lift(auth), fetchRefreshToken, [], prompt);
            legacy.result == scoped.result && legacy.sent == scoped.sent && legacy.prompted == scoped.consulted
            && Lift(legacy.auth) == scoped.auth
  {
    if auth.refreshToken.Some? {
      assert RefreshForm(auth, auth.refreshToken.value) == OAuth.RefreshForm(Lift(auth), auth.refreshToken.value, []);
    }
    if prompt.Ok? {
      var (u, p) := prompt.value;
      assert PasswordForm(auth, u, p) == OAuth.PasswordForm(Lift(auth), u, p, []);
    }
  }

  /** `delete_client` of src/tokens.rs is the legacy copy of the delete
      command: same registry, same save decision, same lines. */
  lemma DeleteClientIsDeleteCommand(nickname: string, config: LegacyConfigFile, disk: Config.SaveOutcome)
    ensures DeleteClient(nickname, config, disk) == Commands.Delete(nickname, config, disk)
  {
  }
}

=== FILE: oauth.dfy ===
/** The token acquisition engine of src/oauth.rs (`TokenManager`): a refresh
    attempt whose failures are swallowed, then a password attempt whose
    failures are returned. The engine mutates the client entry in place; here
    it returns the updated entry together with its result, the requests it
    sent and whether it consulted the credentials provider. */
module OAuth {
  import opened Wrappers
  import opened Types
  import opened HttpExchange
  import Scopes

  /** `add_optional_fields`: a `scope` field holding the space-joined scopes
      when any were requested. The client entry is passed but unused, so
      nothing of it (its secret in particular) is ever added. */
  function AddOptionalFields(form: Form, auth: AuthConfig, scopes: seq<string>): (r: Form)
    ensures |r| == |form| + (if |scopes| == 0 then 0 else 1)
    ensures r[..|form|] == form
    ensures |scopes| > 0 ==> r[|form|] == ("scope", Scopes.Join(scopes))
  {
    if |scopes| == 0 then form else form + [("scope", Scopes.Join(scopes))]
  }

  /** The password grant body (section 4.3.2 of RFC 6749). */
  function PasswordForm(auth: AuthConfig, username: string, password: string, scopes: seq<string>): Form
  {
    AddOptionalFields(PasswordFields(auth, username, password), auth, scopes)
  }

  /** The refresh grant body (section 6 of RFC 6749). */
  function RefreshForm(auth: AuthConfig, refreshToken: string, scopes: seq<string>): Form
  {
    AddOptionalFields(RefreshFields(auth, refreshToken), auth, scopes)
  }

  function PasswordRequest(auth: AuthConfig, username: string, password: string, scopes: seq<string>): Request
  {
    Request(TokenUrl(auth.authUrl), PasswordForm(auth, username, password, scopes))
  }

  function RefreshRequest(auth: AuthConfig, refreshToken: string, scopes: seq<string>): Request
  {
    Request(TokenUrl(auth.authUrl), RefreshForm(auth, refreshToken, scopes))
  }

  /** A `scope` field is appended exactly when scopes were requested, and it
      then holds them joined by single spaces. */
  lemma ScopeField(form: Form, auth: AuthConfig, scopes: seq<string>)
    requires Lookup(form, "scope") == None
    ensures Lookup(AddOptionalFields(form, auth, scopes), "scope")
         == (if |scopes| == 0 then None else Some(Scopes.Join(scopes)))
    ensures Names(AddOptionalFields(form, auth, scopes))
         == Names(form) + (if |scopes| == 0 then [] else ["scope"])
  {
    if |scopes| > 0 {
      LookupAppend(form, "scope", Scopes.Join(scopes));
    }
  }

  /** Appending a field is seen by a lookup only when the name is new. */
  lemma {:induction false} LookupAppend(form: Form, name: string, value: string)
    requires Lookup(form, name) == None
    ensures Lookup(form + [(name, value)], name) == Some(value)
  {
    if |form| > 0 {
      assert (form + [(name, value)])[1..] == form[1..] + [(name, value)];
      LookupAppend(form[1..], name, value);
    }
  }

  /** Fields appended after a name's first occurrence do not change what a
      lookup of that name finds. */
  lemma {:induction false} LookupExtend(form: Form, extra: Form, name: string)
    requires Lookup(form, name).Some?
    ensures Lookup(form + extra, name) == Lookup(form, name)
  {
    if form[0].0 != name {
      assert (form + extra)[1..] == form[1..] + extra;
      LookupExtend(form[1..], extra, name);
    }
  }

  /** The fixed part of the password grant body. */
  function PasswordFields(auth: AuthConfig, username: string, password: string): Form
  {
    [("grant_type", "password"), ("client_id", auth.clientId), ("username", username), ("password", password)]
  }

  /** The fixed part of the refresh grant body. */
  function RefreshFields(auth: AuthConfig, refreshToken: string): Form
  {
    [("grant_type", "refresh_token"), ("client_id", auth.clientId), ("refresh_token", refreshToken)]
  }

  /** The password grant body has exactly its protocol fields, in order,
      then the optional `scope`; no secret is among them. */
  lemma PasswordFormNames(auth: AuthConfig, username: string, password: string, scopes: seq<string>)
    ensures Names(PasswordForm(auth, username, password, scopes))
         == ["grant_type", "client_id", "username", "password"] + (if |scopes| == 0 then [] else ["scope"])
  {
    var base := PasswordFields(auth, username, password);
    PasswordFieldsLookup(auth, username, password);
    ScopeField(base, auth, scopes);
    assert Names(base) == ["grant_type", "client_id", "username", "password"];
  }

  /** Each field of the password grant body carries its value: the grant
      type, the client id, the credentials, and the joined scopes when any
      were requested. */
  lemma PasswordFormFields(auth: AuthConfig, username: string, password: string, scopes: seq<string>)
    ensures Lookup(PasswordForm(auth, username, password, scopes), "grant_type") == Some("password")
    ensures Lookup(PasswordForm(auth, username, password, scopes), "client_id") == Some(auth.clientId)
    ensures Lookup(PasswordForm(auth, username, password, scopes), "username") == Some(username)
    ensures Lookup(PasswordForm(auth, username, password, scopes), "password") == Some(password)
    ensures Lookup(PasswordForm(auth, username, password, scopes), "scope")
         == (if |scopes| == 0 then None else Some(Scopes.Join(scopes)))
  {
    var base := PasswordFields(auth, username, password);
    PasswordFieldsLookup(auth, username, password);
    ScopeField(base, auth, scopes);
    if |scopes| > 0 {
      PasswordFormLookups(auth, username, password, [("scope", Scopes.Join(scopes))]);
    }
  }

  lemma PasswordFormLookups(auth: AuthConfig, username: string, password: string, extra: Form)
    ensures var form := PasswordFields(auth, username, password) + extra;
            && Lookup(form, "grant_type") == Some("password")
            && Lookup(form, "client_id") == Some(auth.clientId)
            && Lookup(form, "username") == Some(username)
            && Lookup(form, "password") == Some(password)
  {
    var base := PasswordFields(auth, username, password);
    PasswordFieldsLookup(auth, username, password);
    LookupExtend(base, extra, "grant_type");
    LookupExtend(base, extra, "client_id");
    LookupExtend(base, extra, "username");
    LookupExtend(base, extra, "password");
  }

  lemma PasswordFieldsLookup(auth: AuthConfig, username: string, password: string)
    ensures var base := PasswordFields(auth, username, password);
            && Lookup(base, "grant_type") == Some("password")
            && Lookup(base, "client_id") == Some(auth.clientId)
            && Lookup(base, "username") == Some(username)
            && Lookup(base, "password") == Some(password)
            && Lookup(base, "scope") == None
  {
    var base := PasswordFields(auth, username, password);
    var t1, t2, t3 := base[1..], base[2..], base[3..];
    assert t1[1..] == t2 && t2[1..] == t3 && t3[1..] == [];
    assert Lookup(t3, "scope") == None && Lookup(t3, "password") == Some(password);
    assert Lookup(t2, "scope") == None && Lookup(t2, "password") == Some(password);
    assert Lookup(t2, "username") == Some(username);
    assert Lookup(t1, "scope") == None && Lookup(t1, "password") == Some(password);
    assert Lookup(t1, "username") == Some(username);
  }

  /** The refresh grant body has exactly its protocol fields, in order, then
      the optional `scope`; no secret is among them. */
  lemma RefreshFormNames(auth: AuthConfig, refreshToken: string, scopes: seq<string>)
    ensures Names(RefreshForm(auth, refreshToken, scopes))
         == ["grant_type", "client_id", "refresh_token"] + (if |scopes| == 0 then [] else ["scope"])
  {
    var base := RefreshFields(auth, refreshToken);
    RefreshFieldsLookup(auth, refreshToken);
    ScopeField(base, auth, scopes);
    assert Names(base) == ["grant_type", "client_id", "refresh_token"];
  }

  /** Each field of the refresh grant body carries its value: the grant
      type, the client id, the refresh token, and the joined scopes when any
      were requested. */
  lemma RefreshFormFields(auth: AuthConfig, refreshToken: string, scopes: seq<string>)
    ensures Lookup(RefreshForm(auth, refreshToken, scopes), "grant_type") == Some("refresh_token")
    ensures Lookup(RefreshForm(auth, refreshToken, scopes), "client_id") == Some(auth.clientId)
    ensures Lookup(RefreshForm(auth, refreshToken, scopes), "refresh_token") == Some(refreshToken)
    ensures Lookup(RefreshForm(auth, refreshToken, scopes), "scope")
         == (if |scopes| == 0 then None else Some(Scopes.Join(scopes)))
  {
    var base := RefreshFields(auth, refreshToken);
    RefreshFieldsLookup(auth, refreshToken);
    ScopeField(base, auth, scopes);
    if |scopes| > 0 {
      RefreshFormLookups(auth, refreshToken, [("scope", Scopes.Join(scopes))]);
    }
  }

  lemma RefreshFormLookups(auth: AuthConfig, refreshToken: string, extra: Form)
    ensures var form := RefreshFields(auth, refreshToken) + extra;
            && Lookup(form, "grant_type") == Some("refresh_token")
            && Lookup(form, "client_id") == Some(auth.clientId)
            && Lookup(form, "refresh_token") == Some(refreshToken)
  {
    var base := RefreshFields(auth, refreshToken);
    RefreshFieldsLookup(auth, refreshToken);
    LookupExtend(base, extra, "grant_type");
    LookupExtend(base, extra, "client_id");
    LookupExtend(base, extra, "refresh_token");
  }

  lemma RefreshFieldsLookup(auth: AuthConfig, refreshToken: string)
    ensures var base := RefreshFields(auth, refreshToken);
            && Lookup(base, "grant_type") == Some("refresh_token")
            && Lookup(base, "client_id") == Some(auth.clientId)
            && Lookup(base, "refresh_token") == Some(refreshToken)
            && Lookup(base, "scope") == None
  {
    var base := RefreshFields(auth, refreshToken);
    var t1, t2 := base[1..], base[2..];
    assert t1[1..] == t2 && t2[1..] == [];
    assert Lookup(t2, "scope") == None && Lookup(t2, "refresh_token") == Some(refreshToken);
    assert Lookup(t1, "scope") == None && Lookup(t1, "refresh_token") == Some(refreshToken);
  }

  /** What one grant attempt leaves behind: the access token or the error,
      the client entry afterwards, and the request that went out. */
  datatype Grant = Grant(result: Result<string, AuthError>, auth: AuthConfig, request: Request)

  /** Token rotation: a reply carrying a refresh token replaces the stored
      one; a reply without one leaves it. Nothing else of the entry moves. */
  function Rotate(auth: AuthConfig, reply: TokenResponse): (a: AuthConfig)
    ensures SameClient(a, auth)
    ensures reply.refreshToken.Some? ==> a.refreshToken == reply.refreshToken
    ensures reply.refreshToken.None? ==> a == auth
  {
    if reply.refreshToken.Some? then auth.(refreshToken := reply.refreshToken) else auth
  }

  /** The tail both grants share: send, reject an error status, decode, and
      only then rotate and hand back the access token. */
  function Post(server: Server, auth: AuthConfig, request: Request): (g: Grant)
    ensures g.request == request
    ensures g.result.Ok? <==> Receive(server(request)).Ok?
    ensures g.result.Ok? ==> g.result.value == Receive(server(request)).value.accessToken
    ensures g.result.Ok? ==> g.auth == Rotate(auth, Receive(server(request)).value)
    ensures g.result.Err? ==> g.result.error == Receive(server(request)).error && g.auth == auth
  {
    match Receive(server(request))
    case Ok(reply) => Grant(Ok(reply.accessToken), Rotate(auth, reply), request)
    case Err(e) => Grant(Err(e), auth, request)
  }

  /** `request_new_token`: the password grant. A failure of any kind leaves
      the entry as it was. */
  function RequestNewToken(server: Server, auth: AuthConfig, username: string, password: string, scopes: seq<string>): (g: Grant)
    ensures g.request == PasswordRequest(auth, username, password, scopes)
    ensures SameClient(g.auth, auth)
    ensures g.result.Err? ==> g.auth == auth
    ensures g.result.Ok? <==> Receive(server(g.request)).Ok?
  {
    Post(server, auth, PasswordRequest(auth, username, password, scopes))
  }

  /** `use_refresh_token`: the refresh grant with the given token. A failure
      of any kind leaves the entry as it was. */
  function UseRefreshToken(server: Server, auth: AuthConfig, refreshToken: string, scopes: seq<string>): (g: Grant)
    ensures g.request == RefreshRequest(auth, refreshToken, scopes)
    ensures SameClient(g.auth, auth)
    ensures g.result.Err? ==> g.auth == auth
    ensures g.result.Ok? <==> Receive(server(g.request)).Ok?
  {
    Post(server, auth, RefreshRequest(auth, refreshToken, scopes))
  }

  /** What one `get_or_refresh_token` call leaves behind. */
  datatype Acquisition = Acquisition(
    result: Result<string, AuthError>,
    auth: AuthConfig,          // the client entry after the call
    sent: seq<Request>,        // the requests posted, in order
    consulted: bool)           // whether the credentials provider was asked

  /** A refresh token is stored and the refresh grant made with it succeeds. */
  predicate RefreshSucceeds(server: Server, auth: AuthConfig, scopes: seq<string>) {
    auth.refreshToken.Some?
    && Receive(server(RefreshRequest(auth, auth.refreshToken.value, scopes))).Ok?
  }

  /** `get_or_refresh_token`. */
  function GetOrRefreshToken(server: Server, auth: AuthConfig, fetchRefreshToken: bool, scopes: seq<string>,
                             credentials: Credentials): (a: Acquisition)
    // which path runs
    ensures a.consulted <==> !RefreshSucceeds(server, auth, scopes)
    ensures |a.sent| <= 2
    ensures forall r :: r in a.sent ==> r.url == TokenUrl(auth.authUrl)
    ensures auth.refreshToken.Some? <==> |a.sent| > 0 && GrantType(a.sent[0]) == Some("refresh_token")
    ensures auth.refreshToken.Some? ==> a.sent[0] == RefreshRequest(auth, auth.refreshToken.value, scopes)
    // a successful refresh: no prompt, no password grant, result chosen by the flag
    ensures !a.consulted ==> a.sent == [RefreshRequest(auth, auth.refreshToken.value, scopes)]
    ensures !a.consulted && fetchRefreshToken ==> a.result == Ok(auth.refreshToken.value)
    ensures !a.consulted && !fetchRefreshToken ==> a.result == Ok(Receive(server(a.sent[0])).value.accessToken)
    // the password path: the provider's error ends the call before any password grant
    ensures a.consulted && credentials.Err? ==>
              && a.result == Err(CredentialsError(credentials.error))
              && a.auth == auth
              && forall r :: r in a.sent ==> GrantType(r) == Some("refresh_token")
    // otherwise one password grant is sent last and its outcome is the call's
    ensures a.consulted && credentials.Ok? ==>
              && |a.sent| > 0
              && a.sent[|a.sent| - 1] == PasswordRequest(auth, credentials.value.0, credentials.value.1, scopes)
              && (a.result.Ok? <==> Receive(server(a.sent[|a.sent| - 1])).Ok?)
              && (a.result.Ok? ==> a.result.value == Receive(server(a.sent[|a.sent| - 1])).value.accessToken)
              && (a.result.Err? ==> a.result.error == Receive(server(a.sent[|a.sent| - 1])).error)
    // the password path sends at most the one refresh attempt and then exactly one password grant
    ensures a.consulted ==>
              a.sent == (if auth.refreshToken.Some? then [RefreshRequest(auth, auth.refreshToken.value, scopes)] else [])
                        + (if credentials.Ok? then [PasswordRequest(auth, credentials.value.0, credentials.value.1, scopes)] else [])
    // the entry: only the refresh token moves, and only on success, to the last reply's
    ensures SameClient(a.auth, auth)
    ensures a.result.Err? ==> a.auth == auth
    ensures a.result.Ok? ==> a.auth == Rotate(auth, Receive(server(a.sent[|a.sent| - 1])).value)
  {
    var refreshed :=
      if auth.refreshToken.Some? then Some(UseRefreshToken(server, auth, auth.refreshToken.value, scopes)) else None;
    if refreshed.Some? && refreshed.value.result.Ok? then
      var token := if fetchRefreshToken then auth.refreshToken.value else refreshed.value.result.value;
      Acquisition(Ok(token), refreshed.value.auth, [refreshed.value.request], false)
    else
      var tried := if refreshed.Some? then [refreshed.value.request] else [];
      var current := if refreshed.Some? then refreshed.value.auth else auth;
      match credentials
      case Err(e) => Acquisition(Err(CredentialsError(e)), current, tried, true)
      case Ok((username, password)) =>
        var g := RequestNewToken(server, current, username, password, scopes);
        Acquisition(g.result, g.auth, tried + [g.request], true)
  }
}

=== FILE: oauth_properties.dfy ===
/** Properties of the src/oauth.rs engine that relate several calls, and
    concrete exchanges that pin its behaviour down. */
module OAuthProperties {
  import opened Wrappers
  import opened Types
  import opened HttpExchange
  import opened OAuth
  import Scopes

  /** On the password path the flag has no effect: asking for the refresh
      token still returns the access token. */
  lemma PasswordPathIgnoresFlag(server: Server, auth: AuthConfig, scopes: seq<string>, credentials: Credentials)
    requires !RefreshSucceeds(server, auth, scopes)
    ensures GetOrRefreshToken(server, auth, true, scopes, credentials)
         == GetOrRefreshToken(server, auth, false, scopes, credentials)
  {
  }

  /** A failed refresh attempt is invisible except for the request it sent:
      the call then behaves exactly as for the same entry with no refresh
      token stored, and the stored token survives unless the password reply
      rotates it. */
  lemma FailedRefreshFallsBack(server: Server, auth: AuthConfig, flag: bool, scopes: seq<string>, credentials: Credentials)
    requires auth.refreshToken.Some? && !RefreshSucceeds(server, auth, scopes)
    ensures var a := GetOrRefreshToken(server, auth, flag, scopes, credentials);
            var b := GetOrRefreshToken(server, auth.(refreshToken := None), flag, scopes, credentials);
            && a.result == b.result
            && a.consulted && b.consulted
            && a.sent == [RefreshRequest(auth, auth.refreshToken.value, scopes)] + b.sent
            && (b.auth.refreshToken.Some? ==> a.auth == b.auth)
            && (b.auth.refreshToken.None? ==> a.auth == auth)
  {
    var a := GetOrRefreshToken(server, auth, flag, scopes, credentials);
    var b := GetOrRefreshToken(server, auth.(refreshToken := None), flag, scopes, credentials);
    var bare := auth.(refreshToken := None);
    if credentials.Ok? {
      var (u, p) := credentials.value;
      assert PasswordRequest(auth, u, p, scopes) == PasswordRequest(bare, u, p, scopes);
    }
  }

  /** The stored secret never reaches the wire: changing it changes neither
      the requests sent nor the result, and the entry comes back with the
      secret it went in with. */
  lemma EngineIgnoresSecret(server: Server, auth: AuthConfig, secret: Option<string>, flag: bool,
                            scopes: seq<string>, credentials: Credentials)
    ensures var a := GetOrRefreshToken(server, auth, flag, scopes, credentials);
            var b := GetOrRefreshToken(server, auth.(secret := secret), flag, scopes, credentials);
            && a.sent == b.sent
            && a.result == b.result
            && a.consulted == b.consulted
            && b.auth == a.auth.(secret := secret)
  {
    var other := auth.(secret := secret);
    if auth.refreshToken.Some? {
      assert RefreshRequest(auth, auth.refreshToken.value, scopes) == RefreshRequest(other, auth.refreshToken.value, scopes);
    }
    if credentials.Ok? {
      var (u, p) := credentials.value;
      assert PasswordRequest(auth, u, p, scopes) == PasswordRequest(other, u, p, scopes);
    }
  }

  /** The client used by the concrete scenarios below. */
  function Client(refreshToken: Option<string>): AuthConfig
  {
    AuthConfig("https://idp.example/realms/master", "cli", refreshToken, None)
  }

  /** A server that answers refresh grants and password grants differently
      and anything else with no response. */
  function ByGrant(onRefresh: Wire, onPassword: Wire): Server
  {
    (r: Request) =>
      if GrantType(r) == Some("refresh_token") then onRefresh
      else if GrantType(r) == Some("password") then onPassword
      else NoResponse
  }

  /** A stored "r1" is refreshed into access token "a2" and rotated to "r2";
      without the flag the access token comes back and nobody is prompted. */
  lemma RotationReturnsAccessToken()
    ensures var a := GetOrRefreshToken(ByGrant(Reply(200, Some(TokenResponse("a2", Some("r2")))), NoResponse),
                                       Client(Some("r1")), false, [], Err("no terminal"));
            a.result == Ok("a2") && a.auth == Client(Some("r2")) && !a.consulted && |a.sent| == 1
  {
    RefreshFormFields(Client(Some("r1")), "r1", []);
  }

  /** The same exchange with the flag set returns "r1", the token the request
      was made with, although "r2" is now stored. */
  lemma FlagReturnsPreRotationToken()
    ensures var a := GetOrRefreshToken(ByGrant(Reply(200, Some(TokenResponse("a2", Some("r2")))), NoResponse),
                                       Client(Some("r1")), true, [], Err("no terminal"));
            a.result == Ok("r1") && a.auth.refreshToken == Some("r2")
  {
    RefreshFormFields(Client(Some("r1")), "r1", []);
  }

  /** A refresh rejected with 400 falls back to the password grant; its reply
      carries no refresh token, so the rejected one stays stored. */
  lemma RejectedRefreshKeepsStoredToken()
    ensures var a := GetOrRefreshToken(ByGrant(Reply(400, None), Reply(200, Some(TokenResponse("a3", None)))),
                                       Client(Some("rbad")), false, [], Ok(("u", "p")));
            a.result == Ok("a3") && a.auth == Client(Some("rbad")) && a.consulted && |a.sent| == 2
  {
    RefreshFormFields(Client(Some("rbad")), "rbad", []);
    PasswordFormFields(Client(Some("rbad")), "u", "p", []);
  }

  /** With nothing stored, a password grant returning "r4" stores it. */
  lemma PasswordGrantStoresRefreshToken()
    ensures var a := GetOrRefreshToken(ByGrant(NoResponse, Reply(200, Some(TokenResponse("a4", Some("r4"))))),
                                       Client(None), true, [], Ok(("u", "p")));
            a.result == Ok("a4") && a.auth == Client(Some("r4")) && a.consulted && |a.sent| == 1
  {
    PasswordFormFields(Client(None), "u", "p", []);
  }

  /** A failing provider with nothing stored ends the call with its error
      before any request is made. */
  lemma ProviderFailureSendsNothing()
    ensures var a := GetOrRefreshToken(ByGrant(NoResponse, Reply(200, Some(TokenResponse("a5", None)))),
                                       Client(None), false, ["openid"], Err("Test error"));
            a.result == Err(CredentialsError("Test error")) && a.sent == [] && a.auth == Client(None)
  {
  }

  /** Requested scopes travel as one space-joined `scope` field. */
  lemma ScopesAreJoined()
    ensures var a := GetOrRefreshToken(ByGrant(NoResponse, Reply(200, Some(TokenResponse("token", Some("refresh"))))),
                                       Client(None), false, ["openid", "profile"], Ok(("user", "pass")));
            a.result == Ok("token") && |a.sent| == 1 && Lookup(a.sent[0].form, "scope") == Some("openid profile")
  {
    PasswordFormFields(Client(None), "user", "pass", ["openid", "profile"]);
    assert Scopes.Join(["openid", "profile"]) == "openid profile" by {
      assert ["openid", "profile"][1..] == ["profile"];
    }
  }
}

=== FILE: output.dfy ===
/** What a command run leaves behind besides the registry: its result, the
    save it attempted and the lines it printed, each on the stream the code
    prints it to. Shared by the commands of src/commands/ and by the legacy
    `delete_client` of src/tokens.rs. */
module Output {
  import opened Wrappers
  import opened Types

  /** `println!` writes to standard output, `eprintln!` to standard error. */
  datatype Stream = Stdout | Stderr

  /** The token line `get` prints: the token itself, or a JSON object whose
      single `Authorization` member holds `value`. */
  datatype Message = Plain(token: string) | AuthorizationHeader(value: string)

  /** What a command printed, one line each. */
  datatype Notice =
    | Printed(message: Message)             // get: the token line
    | SaveWarning(reason: string)           // get: token retrieved but not saved
    | RetrievalFailed(error: AuthError)     // get: the engine failed
    | ClientNotFound(nickname: string)      // get: unknown nickname
    | ClientAdded(nickname: string)         // add
    | ClientRemoved(nickname: string)       // delete, delete_client
    | RefreshTokenRemoved(nickname: string) // logout
    | UpdateFailed(reason: string)          // delete, delete_client, logout: the save failed
    | ClientMissing(nickname: string)       // delete, delete_client, logout: unknown nickname

  /** The stream each line goes to: only `get`'s token line goes to standard
      output among `get`'s lines, while add, delete, logout and
      `delete_client` print every line to standard output. */
  function StreamOf(n: Notice): Stream
  {
    match n
    case Printed(_) => Stdout
    case SaveWarning(_) => Stderr
    case RetrievalFailed(_) => Stderr
    case ClientNotFound(_) => Stderr
    case ClientAdded(_) => Stdout
    case ClientRemoved(_) => Stdout
    case RefreshTokenRemoved(_) => Stdout
    case UpdateFailed(_) => Stdout
    case ClientMissing(_) => Stdout
  }

  /** The lines of `notices` that appear on `stream`, in order. These are
      the command's own lines only: the console provider's prompts, which a
      prompting `get` also writes to standard output, are not among them. */
  function OnStream(notices: seq<Notice>, stream: Stream): (out: seq<Notice>)
    ensures |out| <= |notices|
    ensures forall i :: 0 <= i < |out| ==> out[i] in notices && StreamOf(out[i]) == stream
    ensures (forall i :: 0 <= i < |notices| ==> StreamOf(notices[i]) == stream) ==> out == notices
    ensures (forall i :: 0 <= i < |notices| ==> StreamOf(notices[i]) != stream) ==> out == []
  {
    if |notices| == 0 then []
    else
      var rest := OnStream(notices[1..], stream);
      if StreamOf(notices[0]) == stream then [notices[0]] + rest else rest
  }

  /** One command run. `written` is the registry handed to `save_config`, or
      `None` when no save was attempted. */
  datatype Run<Entry> = Run(
    result: Result<(), string>,
    config: ConfigFile<Entry>,
    written: Option<ConfigFile<Entry>>,
    notices: seq<Notice>)
}

=== FILE: scopes.dfy ===
/** The `scope` form value: the requested scopes joined by single spaces,
    the space-delimited list of section 3.3 of RFC 6749. `Split` is its
    partner, the way a reader of that value takes it apart again. */
module Scopes {

  /** `scopes.join(" ")`. */
  function Join(scopes: seq<string>): string
  {
    if |scopes| == 0 then ""
    else if |scopes| == 1 then scopes[0]
    else scopes[0] + " " + Join(scopes[1..])
  }

  /** `str::split(' ')`: the pieces between single spaces, empty pieces
      included; there is always at least one piece and none holds a space. */
  function Split(s: string): (pieces: seq<string>)
    ensures |pieces| >= 1
    ensures forall i :: 0 <= i < |pieces| ==> ' ' !in pieces[i]
    decreases |s|
  {
    if |s| == 0 then [""]
    else
      var rest := Split(s[1..]);
      if s[0] == ' ' then [""] + rest
      else [[s[0]] + rest[0]] + rest[1..]
  }

  /** A run of characters without a space splits into itself, and a space
      after it starts the next piece. */
  lemma {:induction false} SplitWord(word: string, tail: string)
    requires ' ' !in word
    ensures Split(word) == [word]
    ensures Split(word + " " + tail) == [word] + Split(tail)
    decreases |word|
  {
    if |word| == 0 {
      assert word + " " + tail == [' '] + tail;
      assert ([' '] + tail)[1..] == tail;
    } else {
      SplitWord(word[1..], tail);
      assert (word + " " + tail)[1..] == word[1..] + " " + tail;
      assert [word[0]] + word[1..] == word;
    }
  }

  /** Splitting the joined value gives the scope list back, provided there is
      at least one scope and no scope contains a space (a scope token of
      RFC 6749 never does). */
  lemma {:induction false} SplitJoin(scopes: seq<string>)
    requires |scopes| > 0
    requires forall i :: 0 <= i < |scopes| ==> ' ' !in scopes[i]
    ensures Split(Join(scopes)) == scopes
    decreases |scopes|
  {
    if |scopes| == 1 {
      SplitWord(scopes[0], "");
    } else {
      SplitJoin(scopes[1..]);
      SplitWord(scopes[0], Join(scopes[1..]));
      assert [scopes[0]] + scopes[1..] == scopes;
    }
  }

  /** Distinct scope lists give distinct `scope` values, under the same
      conditions: joining loses nothing. */
  lemma JoinInjective(a: seq<string>, b: seq<string>)
    requires |a| > 0 && forall i :: 0 <= i < |a| ==> ' ' !in a[i]
    requires |b| > 0 && forall i :: 0 <= i < |b| ==> ' ' !in b[i]
    requires Join(a) == Join(b)
    ensures a == b
  {
    SplitJoin(a);
    SplitJoin(b);
  }
}

=== FILE: tokens.dfy ===
/** The older, scope-less copy of the engine in src/tokens.rs, with its own
    three-field client entry (no secret), its credentials prompt passed in as
    a closure's outcome, and its `delete_client`. */
module Tokens {
  import opened Wrappers
  import opened Types
  import opened HttpExchange
  import Config
  import Output

  /** The entry of this module: url, client id and stored refresh token. */
  datatype LegacyAuthConfig = LegacyAuthConfig(authUrl: string, clientId: string, refreshToken: Option<string>)

  type LegacyConfigFile = ConfigFile<LegacyAuthConfig>

  /** The password grant body: exactly these four fields, no scope. */
  function PasswordForm(auth: LegacyAuthConfig, username: string, password: string): Form
  {
    [("grant_type", "password"), ("client_id", auth.clientId), ("username", username), ("password", password)]
  }

  /** The refresh grant body: exactly these three fields, no scope. */
  function RefreshForm(auth: LegacyAuthConfig, refreshToken: string): Form
  {
    [("grant_type", "refresh_token"), ("client_id", auth.clientId), ("refresh_token", refreshToken)]
  }

  /** The legacy password grant body has exactly its four protocol fields,
      in order, and no `scope`. */
  lemma PasswordFormFields(auth: LegacyAuthConfig, username: string, password: string)
    ensures Names(PasswordForm(auth, username, password)) == ["grant_type", "client_id", "username", "password"]
    ensures Lookup(PasswordForm(auth, username, password), "grant_type") == Some("password")
    ensures Lookup(PasswordForm(auth, username, password), "scope") == None
  {
    var form := PasswordForm(auth, username, password);
    assert Lookup(form[3..], "scope") == Lookup(form[4..], "scope") == None by {
      assert form[3..][1..] == form[4..] == [];
    }
    assert Lookup(form[2..], "scope") == Lookup(form[3..], "scope") by { assert form[2..][1..] == form[3..]; }
    assert Lookup(form[1..], "scope") == Lookup(form[2..], "scope") by { assert form[1..][1..] == form[2..]; }
  }

  /** The legacy refresh grant body has exactly its three protocol fields,
      in order, and no `scope`. */
  lemma RefreshFormFields(auth: LegacyAuthConfig, refreshToken: string)
    ensures Names(RefreshForm(auth, refreshToken)) == ["grant_type", "client_id", "refresh_token"]
    ensures Lookup(RefreshForm(auth, refreshToken), "grant_type") == Some("refresh_token")
    ensures Lookup(RefreshForm(auth, refreshToken), "scope") == None
  {
    var form := RefreshForm(auth, refreshToken);
    assert Lookup(form[2..], "scope") == Lookup(form[3..], "scope") == None by {
      assert form[2..][1..] == form[3..] == [];
    }
    assert Lookup(form[1..], "scope") == Lookup(form[2..], "scope") by { assert form[1..][1..] == form[2..]; }
  }

  /** One grant attempt of this module. */
  datatype LegacyGrant = LegacyGrant(result: Result<string, AuthError>, auth: LegacyAuthConfig, request: Request)

  /** Send, reject an error status, decode; only a decoded reply rotates the
      stored token (when it carries one) and yields the access token. */
  function Post(server: Server, auth: LegacyAuthConfig, request: Request): (g: LegacyGrant)
    ensures g.request == request
    ensures g.result.Ok? <==> Receive(server(request)).Ok?
    ensures g.result.Ok? ==> g.result.value == Receive(server(request)).value.accessToken
    ensures g.result.Ok? ==> g.auth.refreshToken == (var reply := Receive(server(request)).value;
                                                    if reply.refreshToken.Some? then reply.refreshToken else auth.refreshToken)
    ensures g.result.Err? ==> g.result.error == Receive(server(request)).error && g.auth == auth
    ensures g.auth.authUrl == auth.authUrl && g.auth.clientId == auth.clientId
  {
    match Receive(server(request))
    case Err(e) => LegacyGrant(Err(e), auth, request)
    case Ok(reply) =>
      var rotated := if reply.refreshToken.Some? then auth.(refreshToken := reply.refreshToken) else auth;
      LegacyGrant(Ok(reply.accessToken), rotated, request)
  }

  /** `request_new_token`: the password grant. */
  function RequestNewToken(server: Server, auth: LegacyAuthConfig, username: string, password: string): (g: LegacyGrant)
    ensures g.request == Request(TokenUrl(auth.authUrl), PasswordForm(auth, username, password))
    ensures g.result.Err? ==> g.auth == auth
  {
    Post(server, auth, Request(TokenUrl(auth.authUrl), PasswordForm(auth, username, password)))
  }

  /** `use_refresh_token`: the refresh grant with the given token. */
  function UseRefreshToken(server: Server, auth: LegacyAuthConfig, refreshToken: string): (g: LegacyGrant)
    ensures g.request == Request(TokenUrl(auth.authUrl), RefreshForm(auth, refreshToken))
    ensures g.result.Err? ==> g.auth == auth
  {
    Post(server, auth, Request(TokenUrl(auth.authUrl), RefreshForm(auth, refreshToken)))
  }

  /** What one `get_or_refresh_token_with_input` call leaves behind. */
  datatype LegacyAcquisition = LegacyAcquisition(
    result: Result<string, AuthError>,
    auth: LegacyAuthConfig,
    sent: seq<Request>,
    prompted: bool)

  /** `get_or_refresh_token_with_input`, with the prompt closure's outcome as
      `prompt`. */
  function GetOrRefreshTokenWithInput(server: Server, auth: LegacyAuthConfig, fetchRefreshToken: bool,
                                      prompt: Credentials): (a: LegacyAcquisition)
    ensures |a.sent| <= 2
    ensures auth.refreshToken.Some? ==>
              |a.sent| > 0 && a.sent[0] == Request(TokenUrl(auth.authUrl), RefreshForm(auth, auth.refreshToken.value))
    // a working stored token: no prompt; the flag picks the pre-call refresh token
    ensures !a.prompted <==> auth.refreshToken.Some? && Receive(server(a.sent[0])).Ok?
    ensures !a.prompted ==> |a.sent| == 1
    ensures !a.prompted && fetchRefreshToken ==> a.result == Ok(auth.refreshToken.value)
    ensures !a.prompted && !fetchRefreshToken ==> a.result == Ok(Receive(server(a.sent[0])).value.accessToken)
    // a prompt error is returned before any password grant
    ensures a.prompted && prompt.Err? ==>
              a.result == Err(CredentialsError(prompt.error)) && a.auth == auth
              && |a.sent| == (if auth.refreshToken.Some? then 1 else 0)
    // otherwise the password grant goes last and decides the result
    ensures a.prompted && prompt.Ok? ==>
              && |a.sent| > 0
              && a.sent[|a.sent| - 1] == Request(TokenUrl(auth.authUrl), PasswordForm(auth, prompt.value.0, prompt.value.1))
              && (a.result.Ok? <==> Receive(server(a.sent[|a.sent| - 1])).Ok?)
              && (a.result.Ok? ==> a.result.value == Receive(server(a.sent[|a.sent| - 1])).value.accessToken)
    // the prompt path sends at most the one refresh attempt and then exactly one password grant
    ensures a.prompted ==>
              a.sent == (if auth.refreshToken.Some? then [Request(TokenUrl(auth.authUrl), RefreshForm(auth, auth.refreshToken.value))] else [])
                        + (if prompt.Ok? then [Request(TokenUrl(auth.authUrl), PasswordForm(auth, prompt.value.0, prompt.value.1))] else [])
    // a success stores the last reply's refresh token, when it carries one
    ensures a.result.Ok? ==>
              a.auth.refreshToken == (var reply := Receive(server(a.sent[|a.sent| - 1])).value;
                                      if reply.refreshToken.Some? then reply.refreshToken else auth.refreshToken)
    ensures a.result.Err? ==> a.auth == auth
    ensures a.auth.authUrl == auth.authUrl && a.auth.clientId == auth.clientId
  {
    var refreshed := if auth.refreshToken.Some? then Some(UseRefreshToken(server, auth, auth.refreshToken.value)) else None;
    if refreshed.Some? && refreshed.value.result.Ok? then
      var token := if fetchRefreshToken then auth.refreshToken.value else refreshed.value.result.value;
      LegacyAcquisition(Ok(token), refreshed.value.auth, [refreshed.value.request], false)
    else
      var tried := if refreshed.Some? then [refreshed.value.request] else [];
      var current := if refreshed.Some? then refreshed.value.auth else auth;
      match prompt
      case Err(e) => LegacyAcquisition(Err(CredentialsError(e)), current, tried, true)
      case Ok((username, password)) =>
        var g := RequestNewToken(server, current, username, password);
        LegacyAcquisition(g.result, g.auth, tried + [g.request], true)
  }

  /** `delete_client`: remove the entry; save and report only if something
      was removed. It has no error to return. */
  function DeleteClient(nickname: string, config: LegacyConfigFile, disk: Config.SaveOutcome): (run: Output.Run<LegacyAuthConfig>)
    ensures run.result == Ok(())
    ensures run.config.clients.Keys == config.clients.Keys - {nickname}
    ensures forall n :: n in run.config.clients ==> run.config.clients[n] == config.clients[n]
    ensures run.written.Some? <==> nickname in config.clients
    ensures run.written.Some? ==> run.written.value == run.config
    ensures nickname !in config.clients ==> run.config == config && run.notices == [Output.ClientMissing(nickname)]
    ensures nickname in config.clients ==>
              run.notices == [if disk.Saved? then Output.ClientRemoved(nickname) else Output.UpdateFailed(disk.reason)]
    ensures Output.OnStream(run.notices, Output.Stdout) == run.notices
  {
    var r := Config.RemoveClient(config, nickname);
    if r.removed then
      var notice := match disk
        case Saved => Output.ClientRemoved(nickname)
        case SaveFailed(reason) => Output.UpdateFailed(reason);
      Output.Run(Ok(()), r.config, Some(r.config), [notice])
    else
      Output.Run(Ok(()), config, None, [Output.ClientMissing(nickname)])
  }

  /** A client of the scenarios below: the mock server's address, and the
      client id and stored token of the test being followed. */
  function Client(clientId: string, refreshToken: Option<string>): LegacyAuthConfig
  {
    LegacyAuthConfig("http://127.0.0.1:8080", clientId, refreshToken)
  }

  /** A working stored token: the prompt is never consulted, the new access
      token is returned and the rotated refresh token is stored. */
  lemma ValidRefreshTokenNeverPrompts()
    ensures var server := (r: Request) => if GrantType(r) == Some("refresh_token")
                                           then Reply(200, Some(TokenResponse("new_access_token", Some("new_refresh_token"))))
                                           else NoResponse;
            var a := GetOrRefreshTokenWithInput(server, Client("test-client", Some("old_refresh_token")), false, Err("must not prompt"));
            !a.prompted && a.result == Ok("new_access_token") && a.auth.refreshToken == Some("new_refresh_token")
  {
    assert GrantType(Request(TokenUrl(Client("test-client", Some("old_refresh_token")).authUrl),
                             RefreshForm(Client("test-client", Some("old_refresh_token")), "old_refresh_token")))
        == Some("refresh_token");
  }

  /** A rejected stored token falls back to the prompt and the password
      grant, whose tokens are returned and stored. */
  lemma InvalidRefreshTokenFallsBackToPrompt()
    ensures var server := (r: Request) => if GrantType(r) == Some("refresh_token") then Reply(400, None)
                                           else Reply(200, Some(TokenResponse("new_token", Some("fresh_token"))));
            var a := GetOrRefreshTokenWithInput(server, Client("client_id", Some("invalid")), false, Ok(("user", "pass")));
            a.prompted && a.result == Ok("new_token") && a.auth.refreshToken == Some("fresh_token")
  {
    var auth := Client("client_id", Some("invalid"));
    assert GrantType(Request(TokenUrl(auth.authUrl), RefreshForm(auth, "invalid"))) == Some("refresh_token");
    var pw := PasswordForm(auth, "user", "pass");
    assert pw[0].0 == "grant_type" && GrantType(Request(TokenUrl(auth.authUrl), pw)) == Some("password");
  }

  /** Deleting "test1" from a two-client registry leaves exactly "test2". */
  lemma DeleteLeavesOthers()
    ensures var t2 := LegacyAuthConfig("https://auth2.com", "client_id_2", None);
            var config := ConfigFile(map["test1" := LegacyAuthConfig("https://auth1.com", "client_id_1", Some("token1")),
                                         "test2" := t2]);
            DeleteClient("test1", config, Config.Saved).config == ConfigFile(map["test2" := t2])
  {
    var t2 := LegacyAuthConfig("https://auth2.com", "client_id_2", None);
    var config := ConfigFile(map["test1" := LegacyAuthConfig("https://auth1.com", "client_id_1", Some("token1")),
                                 "test2" := t2]);
    assert DeleteClient("test1", config, Config.Saved).config.clients == map["test2" := t2];
  }
}

=== FILE: types.dfy ===
/** The records of the token tool (src/types.rs): a registered OAuth client,
    the registry of clients, a decoded token reply, the engine's error
    taxonomy, and what a credentials provider yields. */
module Types {
  import opened Wrappers

  /** One registered OAuth client. `secret` is captured when the client is
      added, but no request ever carries it. */
  datatype AuthConfig = AuthConfig(
    authUrl: string,
    clientId: string,
    refreshToken: Option<string>,
    secret: Option<string>)

  /** The registry: nickname to client entry. It is generic in the entry type
      because the legacy module keeps a three-field entry of its own. */
  datatype ConfigFile<Entry> = ConfigFile(clients: map<string, Entry>)

  type Registry = ConfigFile<AuthConfig>

  /** `ConfigFile::default()`: a registry with no clients. */
  function DefaultConfig<Entry>(): (c: ConfigFile<Entry>)
    ensures forall n :: n !in c.clients
  {
    ConfigFile(map[])
  }

  /** A token endpoint reply once decoded: `access_token` is required and
      `refresh_token` is optional (absent decodes as `None`). A reply body
      lacking `access_token` never becomes a `TokenResponse`. */
  datatype TokenResponse = TokenResponse(accessToken: string, refreshToken: Option<string>)

  /** The tagged form of the engine's boxed errors. */
  datatype AuthError =
    | CredentialsError(reason: string)   // the provider could not supply a pair
    | TransportError                     // the POST never got a response
    | StatusError(status: nat)           // a 4xx or 5xx response
    | DecodeError                        // the body was not a token reply

  /** What a credentials provider yields: a (username, password) pair or the
      provider's error. Test doubles are constant values of this type. */
  type Credentials = Result<(string, string), string>

  /** The fields the engine must never change: everything but the stored
      refresh token. */
  predicate SameClient(a: AuthConfig, b: AuthConfig) {
    a.authUrl == b.authUrl && a.clientId == b.clientId && a.secret == b.secret
  }

  /** Rust's `char::is_whitespace`: the Unicode White_Space property. */
  predicate IsWhitespace(c: char) {
    || ('\t' <= c <= '\r')
    || c == ' '
    || c == '\U{0085}'
    || c == '\U{00A0}'
    || c == '\U{1680}'
    || ('\U{2000}' <= c <= '\U{200A}')
    || c == '\U{2028}'
    || c == '\U{2029}'
    || c == '\U{202F}'
    || c == '\U{205F}'
    || c == '\U{3000}'
  }

  /** Drops leading whitespace: the result is a suffix of `s`, everything
      dropped is whitespace, and the result does not start with whitespace. */
  function TrimStart(s: string): (r: string)
    ensures |r| <= |s| && r == s[|s| - |r|..]
    ensures forall i :: 0 <= i < |s| - |r| ==> IsWhitespace(s[i])
    ensures r == [] || !IsWhitespace(r[0])
    decreases |s|
  {
    if |s| > 0 && IsWhitespace(s[0]) then TrimStart(s[1..]) else s
  }

  /** Drops trailing whitespace: the result is a prefix of `s`, everything
      dropped is whitespace, and the result does not end with whitespace. */
  function TrimEnd(s: string): (r: string)
    ensures |r| <= |s| && r == s[..|r|]
    ensures forall i :: |r| <= i < |s| ==> IsWhitespace(s[i])
    ensures r == [] || !IsWhitespace(r[|r| - 1])
    decreases |s|
  {
    if |s| > 0 && IsWhitespace(s[|s| - 1]) then TrimEnd(s[..|s| - 1]) else s
  }

  /** `str::trim`: the slice `s[i..i + |r|]` left after dropping whitespace
      from both ends; the slice itself neither starts nor ends with it. */
  function Trim(s: string): (r: string)
    ensures exists i :: 0 <= i <= |s| - |r|
                        && r == s[i..][..|r|]
                        && (forall k :: 0 <= k < i ==> IsWhitespace(s[k]))
                        && (forall k :: i + |r| <= k < |s| ==> IsWhitespace(s[k]))
    ensures r == [] || (!IsWhitespace(r[0]) && !IsWhitespace(r[|r| - 1]))
  {
    var front := TrimStart(s);
    var r := TrimEnd(front);
    var i := |s| - |front|;
    assert r == s[i..][..|r|];
    r
  }

  /** Trimming a trimmed string changes nothing. */
  lemma TrimIdempotent(s: string)
    ensures Trim(Trim(s)) == Trim(s)
  {
    var t := Trim(s);
    assert TrimStart(t) == t;
    assert TrimEnd(t) == t;
  }

  /** Whitespace before a string that does not start with whitespace is
      exactly what `TrimStart` drops. */
  lemma {:induction false} TrimStartPadding(w: string, u: string)
    requires forall k :: 0 <= k < |w| ==> IsWhitespace(w[k])
    requires u == [] || !IsWhitespace(u[0])
    ensures TrimStart(w + u) == u
    decreases |w|
  {
    if |w| == 0 {
      assert w + u == u;
      if |u| > 0 {
        assert (w + u)[0] == u[0];
      }
    } else {
      assert (w + u)[0] == w[0];
      assert (w + u)[1..] == w[1..] + u;
      TrimStartPadding(w[1..], u);
    }
  }

  /** Whitespace after a string that does not end with whitespace is exactly
      what `TrimEnd` drops. */
  lemma {:induction false} TrimEndPadding(u: string, w: string)
    requires u == [] || !IsWhitespace(u[|u| - 1])
    requires forall k :: 0 <= k < |w| ==> IsWhitespace(w[k])
    ensures TrimEnd(u + w) == u
    decreases |w|
  {
    if |w| == 0 {
      assert u + w == u;
    } else {
      assert (u + w)[|u + w| - 1] == w[|w| - 1];
      assert (u + w)[..|u + w| - 1] == u + w[..|w| - 1];
      TrimEndPadding(u, w[..|w| - 1]);
    }
  }

  /** `str::trim` undoes padding: surrounding a string that neither starts
      nor ends with whitespace by any whitespace, and trimming, gives the
      string back. This is the username rule of the console provider for
      every typed line. */
  lemma TrimPadding(w1: string, u: string, w2: string)
    requires forall k :: 0 <= k < |w1| ==> IsWhitespace(w1[k])
    requires u == [] || (!IsWhitespace(u[0]) && !IsWhitespace(u[|u| - 1]))
    requires forall k :: 0 <= k < |w2| ==> IsWhitespace(w2[k])
    ensures Trim(w1 + u + w2) == u
  {
    assert w1 + u + w2 == w1 + (u + w2);
    if u == [] {
      assert u + w2 == w2;
      var front := TrimStart(w1 + w2);
      assert front == [];
      assert Trim(w1 + u + w2) == TrimEnd(front);
    } else {
      assert (u + w2)[0] == u[0];
      TrimStartPadding(w1, u + w2);
      TrimEndPadding(u, w2);
    }
  }

  /** The console provider, given what the terminal yields: the username line
      as read (its newline included) and the unechoed password, or the I/O
      error of either read. The username is trimmed; the password is returned
      as read; a failed username read means the password is never read. */
  function ConsoleCredentials(usernameLine: Result<string, string>, password: Result<string, string>): (c: Credentials)
    ensures c.Ok? <==> usernameLine.Ok? && password.Ok?
    ensures c.Ok? ==> c.value.1 == password.value
    ensures c.Ok? ==> c.value.0 == Trim(usernameLine.value)
    ensures usernameLine.Err? ==> c == Err(usernameLine.error)
    ensures usernameLine.Ok? && password.Err? ==> c == Err(password.error)
  {
    match usernameLine
    case Err(e) => Err(e)
    case Ok(line) =>
      match password
      case Err(e) => Err(e)
      case Ok(p) => Ok((Trim(line), p))
  }

  /** A typed username line loses its newline and padding; the password keeps
      its spaces. */
  lemma ConsoleStripsUsernameOnly()
    ensures ConsoleCredentials(Ok(" alice\n"), Ok(" pw ")) == Ok(("alice", " pw "))
  {
    var line := " alice\n";
    assert IsWhitespace(line[0]) && line[1..] == "alice\n";
    assert !IsWhitespace('a');
    assert TrimStart(line) == "alice\n";
    assert IsWhitespace('\n') && "alice\n"[..5] == "alice";
    assert !IsWhitespace('e');
    assert TrimEnd("alice\n") == "alice";
  }
}

=== FILE: wrappers.dfy ===
/** The two failure-carrying shapes the model needs: an optional value and a
    value-or-error result. */
module Wrappers {

  datatype Option<+T> = None | Some(value: T)

  datatype Result<+T, +E> = Ok(value: T) | Err(error: E)
}
